=== FILE: README.md ===
# LuxSUV Driver: client data layer in Dafny

This project models the client-side data layer of the LuxSUV Driver app, a driver-facing
ride-booking client that exists in two variants: a cross-platform JavaScript/TypeScript app
and a Swift app. The model covers:

- the **ride store** (fetch, update, delete, rides on a date, upcoming rides, and the Swift
  `addSampleRide`);
- the **session store** (restore, login, logout, read the stored token);
- the Swift **keychain** wrapper, modelled as a single-slot map;
- the Swift **ride status** enumeration;
- the small screen-side guards that feed these: the login input check, the notes
  normalisation of the update sheet, and the calendar's marked dates and time-sorted list.

Every operation is a pure function of the store state and of what the outside world
answered. HTTP is replaced by the response datatype of each module. Platform storage is
a map, and a failure is passed in as a parameter. Date parsing is an abstract
`string -> Option<int>` parser, and "now" is an integer. Each ride-store operation returns
the list of HTTP requests it sent, so "no request without a token" and "exactly one
refresh after a successful mutation" are properties of the result.

Modules, one per file:

| file | module | models |
|---|---|---|
| wrappers.dfy | `Wrappers` | `Option`, `Result` |
| fetch.dfy | `Fetch` | `response.ok` and JavaScript string truthiness |
| text.dfy | `Text` | JavaScript `trim`, blank checks, code-point string order |
| decimal.dfy | `Decimal` | decimal rendering of integers and its inverse |
| sequences.dfy | `Sequences` | order-preserving filter, stable insertion sort |
| ride_models.dfy | `RideModels` | `RideStatus`, `RideUpdateRequest`, Swift ride dates |
| rides.dfy | `Rides` | shared `Ride` entity, backend mapping, store state, date and upcoming views |
| ride_context.dfy | `RideContext` | `contexts/RideContext.tsx` and `src/context/RideContext.js` |
| ride_service.dfy | `RideService` | `RideService.swift` |
| keychain.dfy | `Keychain` | `KeychainService.swift` |
| login_models.dfy | `LoginModels` | login response and driver shapes |
| auth_service.dfy | `AuthService` | `AuthService.swift` |
| auth_context.dfy | `AuthContext` | `contexts/AuthContext.tsx` |
| calendar_screen.dfy | `CalendarScreen` | `src/screens/CalendarScreen.js` |
| login_screen.dfy | `LoginScreen` | `src/screens/LoginScreen.js` |
| ride_update_modal.dfy | `RideUpdateModal` | `src/components/RideUpdateModal.js` |

The TypeScript and JavaScript ride contexts are identical except for the default of
`updateRide`'s `notes` argument. One module models both of them. `TsNotes` and `JsNotes`
capture the difference: an omitted `notes` is dropped from the TypeScript body and sent
as `null` by the JavaScript one. The variants differ in other places, and the model keeps
each difference:

- The JavaScript variants treat an empty stored token as missing. Swift only checks for nil.
- The JavaScript variants accept any 2xx status. Swift accepts exactly 200.
- The JavaScript variants fall back to a generic message when the server's `message` is
  empty. Swift uses the decoded `APIError.message` as it is.

The date view (`ridesForDate`) and the upcoming filter have one definition in `Rides`, which all
three ride stores share. `RideService.UpcomingRides` restates the Swift promise over that definition.

## Model

| member | source | states |
|---|---|---|
| RideModels.FromRawValue | lux.suv.driver/Models/RideModels.swift:38-43 | decoding a raw value yields the case with exactly that raw value, and fails only on strings that are no case's raw value |
| RideModels.RawValueRoundTrip | lux.suv.driver/Models/RideModels.swift:38-43 | `RideStatus(rawValue: s.rawValue) == s`; raw values are distinct; `allCases` lists the five cases once each |
| RideModels.DisplayNameInjective | lux.suv.driver/Models/RideModels.swift:45-53 | no two statuses share a display name, and none is empty |
| RideModels.Color | lux.suv.driver/Models/RideModels.swift:55-63 | each status has its own colour: blue, green, orange, gray and red identify requested, accepted, in progress, completed and cancelled |
| RideModels.DropoffDate | lux.suv.driver/Models/RideModels.swift:28-35 | the drop-off date is absent whenever the drop-off time is, and otherwise is the parse of that time; `pickupDate` parses the pickup time stamp with the same parser, so equal time stamps give equal dates |
| Rides.FromApi | contexts/RideContext.tsx:78-95 | a fetched ride always has status "requested" and no fare, distance or duration, whatever the backend sent |
| Rides.FromApiList | contexts/RideContext.tsx:78 | the converted list has the response's length and maps it element by element |
| Rides.MappingRoundTrip | contexts/RideContext.tsx:79-90 | every backend field, the stringified id included, can be recovered from the mapped ride |
| Decimal.IntRoundTrip | contexts/RideContext.tsx:79 | `String(id)` of an integer parses back to the integer, and only its canonical rendering does |
| Rides.RidesForDate | src/context/RideContext.js:142-145 | a ride is in the result iff it is in the store and its date string equals the target, with the same multiplicity |
| Rides.RidesForDateKeepsOrder | contexts/RideContext.tsx:172-175 | the date filter keeps relative order: it distributes over concatenation |
| Rides.UpcomingRides | contexts/RideContext.tsx:177-189 | the result is a permutation of the rides whose pickup parses, is after now and whose status is requested or accepted, in ascending pickup order |
| Rides.SortedUpcoming | src/context/RideContext.js:147-159 | sorting the filtered rides with the pickup comparator yields exactly them, in non-decreasing pickup order |
| Sequences.SortBy | contexts/RideContext.tsx:184-188 | with a total, transitive comparator the sort returns a sorted permutation of its input |
| RideContext.ServerMessage | contexts/RideContext.tsx:100-101 | the reported error is the body's `message` when truthy, the operation's fallback otherwise, and the parser's reason when the body is not JSON |
| Rides.BeginFetch | contexts/RideContext.tsx:59-60 | while the listing request is in flight the store is loading, has no error and keeps its rides |
| RideContext.FetchRides | contexts/RideContext.tsx:52-109 | no token: only the error is set and nothing is sent; otherwise one GET, loading ends, a delivered list replaces the rides wholesale; any failure keeps them and reports the rejection's message, the body's `message` or "Failed to fetch rides" for a non-ok status, the parser's reason for an ok body that is not JSON, and the `data.map` TypeError for one that is not an array |
| RideContext.Complete | contexts/RideContext.tsx:128-139 | after a mutation request, an ok response succeeds and ends in the state and requests of one `fetchRides`; anything else fails with an error, keeps the rides and loading flag and sends nothing more; a rejection reports its message |
| RideContext.UpdateRide | contexts/RideContext.tsx:111-140 | fails with no request when there is no token; otherwise sends the PUT first; succeeds iff the response is ok; a non-ok response reports the server message or "Failed to update ride" |
| RideContext.DeleteRide | contexts/RideContext.tsx:142-169 | as `UpdateRide`, with a DELETE and the "Failed to delete ride" fallback |
| RideContext.UpdateRideJs | src/context/RideContext.js:81-110 | the JavaScript PUT body always carries `notes`, null when the argument was omitted |
| RideContext.NotesDefaults | src/context/RideContext.js:81 | the two variants' bodies agree except for an omitted `notes`, dropped by one and sent as null by the other |
| RideContext.MutationRefetchesOnceOnSuccess | src/context/RideContext.js:98-109 | a mutation sends one listing request iff it succeeded and the refresh finds a token, and none otherwise |
| RideContext.ValidIsInvariant | src/context/RideContext.js:14-139 | starting idle with only mapped rides, every fetch, update and delete ends idle with only mapped rides |
| RideService.DecodeRides | lux.suv.driver/Services/RideService.swift:66-106 | the rides adopted on a 200 come from the first decoding that succeeds: backend listing, then `[Ride]`, then `RidesResponse` |
| RideService.RejectionMessage | lux.suv.driver/Services/RideService.swift:107-119 | a non-200 reports the decoded `APIError.message`, else the status fallback |
| RideService.FetchRides | lux.suv.driver/Services/RideService.swift:23-127 | no token: error only and no request; otherwise one GET, loading ends, decoded rides replace the list, all decodings failing gives the parse error, a non-200 keeps the rides with the API or status message, a transport error with its description, a non-HTTP response with "Invalid response" |
| RideService.Complete | lux.suv.driver/Services/RideService.swift:156-187 | a 200 succeeds and ends in the state and requests of one `fetchRides`; anything else fails with an error, keeps the rides and sends nothing more; a transport error reports its description and a non-HTTP response "Invalid response" |
| RideService.UpdateRide | lux.suv.driver/Services/RideService.swift:129-188 | no token: false and no request; the PUT carries a `RideUpdateRequest` of the status and notes; true iff the status is 200 |
| RideService.DeleteRide | lux.suv.driver/Services/RideService.swift:190-244 | no token: false and no request; sends the DELETE; true iff the status is 200 |
| RideService.UpcomingRides | lux.suv.driver/Services/RideService.swift:258-274 | every returned ride's date-time parses and is after now, its status is requested or accepted, every such ride is returned as often as it occurs, ascending |
| RideService.AddSampleRide | lux.suv.driver/Services/RideService.swift:277-303 | appends exactly one requested ride with a "sample-" id; the existing rides, loading flag and error are unchanged |
| RideService.IdleIsInvariant | lux.suv.driver/Services/RideService.swift:23-127 | every operation started while idle ends idle |
| Keychain.SaveToken | lux.suv.driver/Services/KeychainService.swift:18-34 | true iff the add succeeds: no add failure, and either the delete succeeded or there was no old item (a failed delete of an existing item makes the add refuse the duplicate); success leaves exactly the new token in the slot, the other items untouched; failure after a clean delete leaves the slot removed, after a failed delete the keychain unchanged |
| Keychain.GetToken | lux.suv.driver/Services/KeychainService.swift:36-55 | a token is returned iff the lookup succeeds and the item decodes, and it is the stored text |
| Keychain.DeleteToken | lux.suv.driver/Services/KeychainService.swift:57-66 | true iff no failure status, whether or not an item existed, and then the slot is empty |
| Keychain.SaveThenGet | lux.suv.driver/Services/KeychainService.swift:18-55 | a saved token is the one read back |
| Keychain.SaveOverwrites | lux.suv.driver/Services/KeychainService.swift:28-33 | saving twice equals saving the second token once |
| Keychain.DeleteIdempotent | lux.suv.driver/Services/KeychainService.swift:64-65 | a second delete also succeeds and changes nothing; afterwards no token is read |
| AuthService.CheckAuthenticationStatus | lux.suv.driver/Services/AuthService.swift:24-31 | authenticated exactly when the keychain yields a non-empty token; the driver is untouched |
| AuthService.Init | lux.suv.driver/Services/AuthService.swift:20-22 | the shared service starts with no driver, authenticated iff a usable token is stored |
| AuthService.Login | lux.suv.driver/Services/AuthService.swift:33-79 | succeeds (returning true) iff a 200 decodes and the keychain accepts its token; then it authenticates with the response's driver and the token is readable; any thrown error leaves the state; a transport error is rethrown, a non-HTTP response throws bad-server-response, an undecodable 200 throws a decoding error, a refused keychain save throws the keychain error, and a non-200 throws the API message or "Login failed" |
| AuthService.Description | lux.suv.driver/Services/AuthService.swift:50-76 | the keychain error reads "Failed to save token", a refused login reads its message, a transport error keeps its description; only the platform's own errors are left unspecified |
| AuthService.LoginErrorDescription | lux.suv.driver/Services/AuthService.swift:56-78 | a refused login's error reads the server message or "Login failed"; a 200 that fails reads "Failed to save token" if it decoded |
| AuthService.Logout | lux.suv.driver/Services/AuthService.swift:81-87 | always clears authentication and driver; a clean delete removes only the token item; a failed delete is ignored and leaves the keychain, token included, unchanged |
| AuthService.GetStoredToken | lux.suv.driver/Services/AuthService.swift:89-91 | returns the keychain's stored text exactly when it can be read |
| AuthService.AgreementIsKept | lux.suv.driver/Services/AuthService.swift:20-87 | construction whose keychain read succeeds, a login storing a non-empty token, a login failing before the keychain, and a clean logout keep "authenticated iff a usable token is stored" |
| AuthService.FailedSaveDropsToken | lux.suv.driver/Services/AuthService.swift:56-70 | a re-login whose keychain add fails after the delete leaves the service authenticated with no token stored |
| AuthContext.Restore | contexts/AuthContext.tsx:43-55 | sets authenticated iff a truthy token is read, never clears it, and always ends loading |
| AuthContext.Login | contexts/AuthContext.tsx:57-80 | succeeds iff an ok JSON response carries a token and the store write succeeds; then the token is stored and the session authenticated with the response's driver; every failure changes nothing; a rejection, a non-JSON body and a refused store write return their own message, and a non-ok JSON response returns its `message` or "Login failed" |
| AuthContext.Logout | contexts/AuthContext.tsx:82-90 | a successful delete removes the token and clears authentication and driver; a failed delete changes nothing |
| AuthContext.GetStoredToken | contexts/AuthContext.tsx:92-99 | a failed read yields null; otherwise the stored token, if any |
| AuthContext.AgreementIsKept | contexts/AuthContext.tsx:33-99 | restoring from the initial state when the store read succeeds, a login storing a non-empty token, any failed login and any logout keep "authenticated iff a truthy token is stored" |
| AuthContext.LoginThenGetToken | contexts/AuthContext.tsx:69-99 | after a successful login `getStoredToken` reads the response's token; after a logout it reads nothing |
| CalendarScreen.MarkRides | src/screens/CalendarScreen.js:28-35 | every truthy ride date gets the dot marking; other keys keep their value; no other key is added |
| CalendarScreen.MarkedDates | src/screens/CalendarScreen.js:25-45 | the keys are the truthy ride dates plus the selected date; the selected date is selected, and marked iff some ride falls on it; no other date is selected |
| CalendarScreen.SelectedDateRides | src/screens/CalendarScreen.js:159 | the listed rides are a permutation of the selected date's rides, sorted by time string |
| CalendarScreen.TimeLeIsTotalPreorder | src/screens/CalendarScreen.js:159 | the time comparator is total and transitive |
| CalendarScreen.RideCountLabel | src/screens/CalendarScreen.js:147-149 | the label is the decimal count, which parses back, followed by " ride" when the count is one and " rides" otherwise |
| LoginScreen.HandleLogin | src/screens/LoginScreen.js:26-33 | blank username or password shows the error alert and calls nothing; otherwise `login` gets the trimmed, non-empty username and the untrimmed password while loading |
| LoginScreen.FinishLogin | src/screens/LoginScreen.js:34-38 | loading ends, and the "Login Failed" alert with the result's error appears iff the login failed |
| RideUpdateModal.OptionsMatchStatusEnum | src/components/RideUpdateModal.js:13-19 | the choices are the five status raw values in enumeration order, labelled with the display names |
| RideUpdateModal.InitialStatus | src/components/RideUpdateModal.js:22 | the ride's status when truthy, else "requested" |
| RideUpdateModal.InitialNotes | src/components/RideUpdateModal.js:23 | the ride's additional notes when present, else the empty string |
| RideUpdateModal.SubmittedNotes | src/components/RideUpdateModal.js:27-29 | null iff the notes are blank, else their trimmed, non-empty text; never omitted |
| Text.TrimEmptyIffBlank | src/screens/LoginScreen.js:27 | a string trims to empty iff it is all whitespace |
| Text.TrimIsWhiteSpaceFreeSlice | src/components/RideUpdateModal.js:28 | the trimmed text is a slice of the input bordered by whitespace and neither starts nor ends with whitespace |
| Text.TrimIdempotent | src/screens/LoginScreen.js:33 | trimming the trimmed username changes nothing |

## Left out

- HTTP, JSON, URL construction and headers are replaced by response datatypes. A failing
  `JSONEncoder().encode` of the update body is not modelled.
- The Swift "Invalid URL" branches are not modelled. In `fetchRides` the URL is constant and the
  branch cannot be taken. In `updateRide` and `deleteRide` the ride id is interpolated into the
  URL, so an id that `URL(string:)` rejects (one containing a space, say) makes them set
  "Invalid URL" and return false without a request. The model sends the PUT or DELETE instead.
- Concurrency is not modelled: `DispatchQueue.main.async` ordering, overlapping `fetchRides`
  calls (last response wins), and state changes after a screen is dismissed. Each operation
  is one atomic step. The in-flight state is exposed by `BeginFetch` and `Pending`.
- Date and time parsing, time zones and `toISOString` are not modelled. The parser, `now`
  and the target date string are inputs. The calendar turns `selectedDate` into a `Date` and
  back before filtering; that round trip is taken to be the identity.
- Floating-point fares and distances are opaque `real` values.
- `APIRideResponse.toRide()` is not part of this model. The Swift listing decoding uses the
  TypeScript mapping.
- The Swift `Ride` struct in the model file does not match the fields the Swift services use.
  It is kept as `RideModels.RideRecord` for its date accessors. The services use the shared
  `Rides.Ride`, whose status is the raw-value string.
- `localeCompare` in the calendar sort is locale collation, and it is modelled as code-point
  order. The two agree on zero-padded "HH:mm" strings. Other time formats can sort
  differently: collation ranks punctuation below digits and ignores case at its first level.
- Sorting is not claimed to be stable. `SortBy` is a stable insertion sort, but the sources
  do not promise stability and the Swift `sorted` does not guarantee it.
- `String(id)` is modelled for string ids and for integer ids within `Number.MAX_SAFE_INTEGER`
  (`Rides.SafeInteger`), not for fractional numbers or null. A larger numeric id is rounded by
  `JSON.parse` before the app sees it, and one of 10^21 or more is rendered in exponent form.
  Neither is modelled, so `Rides.MappingRoundTrip` covers only the ids the app holds exactly.
- RideContext.FetchRides: when an ok response's body is not an array, the error is
  "data.map is not a function", which is V8's wording. Other engines word this error differently.
- AuthContext.Login: for an ok response without a token, the contract states only that an
  error is returned. The body uses the secure store's rejection message for non-string values.
  That message comes from expo-secure-store, which is not part of this model.
- AuthService.Description: the localized descriptions of `URLError(.badServerResponse)` and of
  decoding errors come from the platform. They are left unspecified.
- AuthService.AgreementIsKept: does not cover a 200 login whose token is empty, or one whose
  keychain write fails. Neither keeps the agreement (see `FailedSaveDropsToken`).
  Construction is covered only when its keychain read succeeds. A failed read leaves a stored
  token with the service unauthenticated.
- AuthContext.AgreementIsKept: restoring is covered only when the store read succeeds. A
  rejected read is caught and leaves a stored token with the session unauthenticated.
- The JavaScript login screen imports `src/context/AuthContext.js`, which is not part of this
  model. The shape of its result is taken from `contexts/AuthContext.tsx`.
- Rendering, navigation, styling and the views' presentational helpers are not modelled.
  This includes the status colours of the JavaScript screens and the Swift calendar grid.
  `console.log` and `print` output is not modelled.

=== FILE: auth_context.dfy ===
/** The TypeScript session context over the platform's secure key-value store.
    Each store call may reject with a message, passed in as `fault`. */
module AuthContext {
  import opened Wrappers
  import opened LoginModels
  import opened Fetch

  /** The secure store: string keys to string values. */
  type Vault = map<string, string>

  /** The one key the context uses. */
  const TokenKey: string := "jwt_token"

  /** The rejection the secure store gives a value that is not a string (the
      store validates values before writing). */
  const InvalidValueMessage: string :=
    "Invalid value provided to SecureStore. Values must be strings; consider JSON-encoding your values if they are serializable."
  const LoginFailedMessage: string := "Login failed"

  datatype Session = Session(isAuthenticated: bool, currentDriver: Option<Driver>, isLoading: bool)

  /** The state before the stored token has been checked. */
  const InitialSession: Session := Session(false, None, true)

  /** `SecureStore.getItemAsync(TokenKey)`. */
  function GetItem(v: Vault, fault: Option<string>): Result<Option<string>, string> {
    match fault
    case Some(m) => Failure(m)
    case None => Success(if TokenKey in v then Some(v[TokenKey]) else None)
  }

  /** `checkAuthenticationStatus`: may set `isAuthenticated`, never clears it,
      and always ends loading. */
  function Restore(s: Session, v: Vault, fault: Option<string>): (r: Session)
    ensures r.isAuthenticated <==> s.isAuthenticated || (fault.None? && TokenKey in v && v[TokenKey] != "")
    ensures !r.isLoading && r.currentDriver == s.currentDriver
  {
    match GetItem(v, fault)
    case Failure(_) => s.(isLoading := false)
    case Success(t) => if Truthy(t) then s.(isAuthenticated := true, isLoading := false) else s.(isLoading := false)
  }

  /** The login response body as `response.json()` yields it. */
  datatype LoginJson = LoginJson(token: Option<string>, driver: Option<Driver>, message: Option<string>)
  datatype LoginBody = Json(value: LoginJson) | NotJson(reason: string)

  datatype Response = Thrown(message: string) | Answered(status: int, body: LoginBody)

  /** `{ success, error? }`. */
  datatype LoginResult = LoginResult(success: bool, error: Option<string>)

  datatype Attempt = Attempt(session: Session, vault: Vault, result: LoginResult)

  /** `login(username, password)`. The token is written before the session
      changes, so a rejected write leaves the session as it was. */
  function Login(s: Session, v: Vault, response: Response, writeFault: Option<string>): (a: Attempt)
    ensures a.result.success <==>
              && response.Answered? && IsOk(response.status) && response.body.Json?
              && response.body.value.token.Some? && writeFault.None?
    ensures a.result.success ==>
              && a.vault == v[TokenKey := response.body.value.token.value]
              && a.session == s.(isAuthenticated := true, currentDriver := response.body.value.driver)
              && a.result.error.None?
    ensures !a.result.success ==> a.session == s && a.vault == v && a.result.error.Some?
    ensures response.Answered? && !IsOk(response.status) && response.body.Json? ==>
              a.result.error == Some(var m := response.body.value.message;
                                     if Truthy(m) then m.value else LoginFailedMessage)
    ensures response.Thrown? ==> a.result.error == Some(response.message)
    ensures response.Answered? && response.body.NotJson? ==> a.result.error == Some(response.body.reason)
    ensures (&& response.Answered? && IsOk(response.status) && response.body.Json?
             && response.body.value.token.Some? && writeFault.Some?)
            ==> a.result.error == writeFault
  {
    match response
    case Thrown(m) => Attempt(s, v, LoginResult(false, Some(m)))
    case Answered(status, body) =>
      match body
      case NotJson(reason) => Attempt(s, v, LoginResult(false, Some(reason)))
      case Json(data) =>
        if IsOk(status) then
          match (data.token, writeFault)
          case (None, _) => Attempt(s, v, LoginResult(false, Some(InvalidValueMessage)))
          case (Some(_), Some(m)) => Attempt(s, v, LoginResult(false, Some(m)))
          case (Some(t), None) =>
            Attempt(s.(isAuthenticated := true, currentDriver := data.driver), v[TokenKey := t], LoginResult(true, None))
        else
          var msg := if Truthy(data.message) then data.message.value else LoginFailedMessage;
          Attempt(s, v, LoginResult(false, Some(msg)))
  }

  /** `logout`: the session is cleared only once the token is deleted. */
  function Logout(s: Session, v: Vault, fault: Option<string>): (r: (Session, Vault))
    ensures fault.None? ==> r.1 == v - {TokenKey} && r.0 == s.(isAuthenticated := false, currentDriver := None)
    ensures fault.Some? ==> r == (s, v)
  {
    match fault
    case Some(_) => (s, v)
    case None => (s.(isAuthenticated := false, currentDriver := None), v - {TokenKey})
  }

  /** `getStoredToken`: a failed read yields null instead of throwing. */
  function GetStoredToken(v: Vault, fault: Option<string>): (r: Option<string>)
    ensures fault.Some? ==> r.None?
    ensures fault.None? ==> (r.Some? <==> TokenKey in v) && (r.Some? ==> r.value == v[TokenKey])
  {
    match GetItem(v, fault)
    case Failure(_) => None
    case Success(t) => t
  }

  /** The session agrees with the store when it is authenticated exactly while
      a truthy token is stored. */
  predicate Agrees(s: Session, v: Vault) {
    s.isAuthenticated <==> Truthy(GetStoredToken(v, None))
  }

  /** Restoring from the initial state, a login that stores a non-empty token,
      any failed login and any logout keep the session agreeing with the store. */
  lemma AgreementIsKept(s: Session, v: Vault, response: Response, writeFault: Option<string>, fault: Option<string>)
    requires Agrees(s, v)
    ensures Agrees(Restore(InitialSession, v, None), v)
    ensures var a := Login(s, v, response, writeFault);
            !a.result.success || response.body.value.token.value != "" ==> Agrees(a.session, a.vault)
    ensures var (r, w) := Logout(s, v, fault); Agrees(r, w)
  {
  }

  /** A successful login is what `getStoredToken` reads back, and a logout
      leaves nothing to read. */
  lemma LoginThenGetToken(s: Session, v: Vault, response: Response)
    ensures var a := Login(s, v, response, None);
            a.result.success ==> GetStoredToken(a.vault, None) == response.body.value.token
    ensures GetStoredToken(Logout(s, v, None).1, None).None?
  {
  }
}

=== FILE: auth_service.dfy ===
/** The Swift app's session service over the keychain wrapper. `login` either
    returns true or throws; the thrown error is a datatype here. */
module AuthService {
  import opened Wrappers
  import opened LoginModels
  import Keychain

  datatype AuthState = AuthState(isAuthenticated: bool, currentDriver: Option<Driver>)

  /** The decodings of a login response body: as a `LoginResponse` and as an
      `APIError` (whose `message` is required). None where that decoding throws. */
  datatype Body = Body(asLoginResponse: Option<LoginResponse>, asApiError: Option<string>)

  datatype Response = Failed(description: string) | NotHttp | Http(status: int, body: Body)

  /** What `login` can throw. */
  datatype AuthError =
    | Transport(description: string)       // rethrown from `URLSession`
    | BadServerResponse                    // `URLError(.badServerResponse)`
    | DecodingFailed                       // the 200 body is not a `LoginResponse`
    | KeychainFailed                       // "Failed to save token"
    | Rejected(code: int, message: string) // a non-200 status

  const SaveFailedMessage: string := "Failed to save token"
  const LoginFailedMessage: string := "Login failed"

  /** The token the keychain yields, if it is non-empty. */
  predicate HasUsableToken(kc: Keychain.Keychain, readFault: Option<Keychain.FailureStatus>) {
    var t := Keychain.GetToken(kc, readFault);
    t.Some? && t.value != ""
  }

  /** `checkAuthenticationStatus`. */
  function CheckAuthenticationStatus(s: AuthState, kc: Keychain.Keychain,
                                     readFault: Option<Keychain.FailureStatus>): (r: AuthState)
    ensures r.isAuthenticated <==> readFault.None? && Keychain.TokenItem in kc
                                   && kc[Keychain.TokenItem] != Keychain.Utf8("")
                                   && kc[Keychain.TokenItem].Utf8?
    ensures r.currentDriver == s.currentDriver
  {
    s.(isAuthenticated := HasUsableToken(kc, readFault))
  }

  /** The shared instance, which checks the keychain once it is constructed. */
  function Init(kc: Keychain.Keychain, readFault: Option<Keychain.FailureStatus>): (r: AuthState)
    ensures r.currentDriver.None?
    ensures r.isAuthenticated <==> HasUsableToken(kc, readFault)
  {
    CheckAuthenticationStatus(AuthState(false, None), kc, readFault)
  }

  datatype Attempt = Attempt(state: AuthState, keychain: Keychain.Keychain, outcome: Result<bool, AuthError>)

  /** `login(username:password:)`. Only a 200 whose token the keychain accepts
      authenticates; every thrown error leaves the state alone. */
  function Login(s: AuthState, kc: Keychain.Keychain, response: Response,
                 deleteFault: Option<Keychain.FailureStatus>, addFault: Option<Keychain.FailureStatus>): (a: Attempt)
    ensures a.outcome.Success? ==> a.outcome.value
    ensures a.outcome.Success? <==>
              && response.Http? && response.status == 200 && response.body.asLoginResponse.Some?
              && Keychain.SaveToken(kc, response.body.asLoginResponse.value.token, deleteFault, addFault).1
    ensures a.outcome.Success? ==>
              && a.state == AuthState(true, response.body.asLoginResponse.value.driver)
              && Keychain.GetToken(a.keychain, None) == Some(response.body.asLoginResponse.value.token)
    ensures a.outcome.Failure? ==> a.state == s
    ensures response.Failed? ==> a.keychain == kc && a.outcome == Failure(Transport(response.description))
    ensures response.NotHttp? ==> a.keychain == kc && a.outcome == Failure(BadServerResponse)
    ensures response.Http? && response.status == 200 && response.body.asLoginResponse.None? ==>
              a.keychain == kc && a.outcome == Failure(DecodingFailed)
    ensures response.Http? && response.status == 200 && response.body.asLoginResponse.Some?
            && !Keychain.SaveToken(kc, response.body.asLoginResponse.value.token, deleteFault, addFault).1 ==>
              && a.outcome == Failure(KeychainFailed)
              && a.keychain == Keychain.SaveToken(kc, response.body.asLoginResponse.value.token, deleteFault, addFault).0
    ensures response.Http? && response.status != 200 ==>
              a.keychain == kc && a.outcome == Failure(Rejected(response.status,
                                     response.body.asApiError.GetOr(LoginFailedMessage)))
  {
    match response
    case Failed(d) => Attempt(s, kc, Failure(Transport(d)))
    case NotHttp => Attempt(s, kc, Failure(BadServerResponse))
    case Http(code, body) =>
      if code == 200 then
        match body.asLoginResponse
        case None => Attempt(s, kc, Failure(DecodingFailed))
        case Some(lr) =>
          var (saved, ok) := Keychain.SaveToken(kc, lr.token, deleteFault, addFault);
          if ok then Attempt(AuthState(true, lr.driver), saved, Success(true))
          else Attempt(s, saved, Failure(KeychainFailed))
      else
        match body.asApiError
        case Some(msg) => Attempt(s, kc, Failure(Rejected(code, msg)))
        case None => Attempt(s, kc, Failure(Rejected(code, LoginFailedMessage)))
  }

  /** The localized description of a thrown error, where the service chose it. */
  function Description(e: AuthError): (d: Option<string>)
    ensures e.KeychainFailed? ==> d == Some(SaveFailedMessage)
    ensures e.Rejected? ==> d == Some(e.message)
    ensures e.Transport? ==> d == Some(e.description)
    ensures d.None? <==> e.BadServerResponse? || e.DecodingFailed?
  {
    match e
    case Transport(d) => Some(d)
    case KeychainFailed => Some(SaveFailedMessage)
    case Rejected(_, m) => Some(m)
    case _ => None
  }

  /** What the caller of a failed login reads from `localizedDescription`: the
      server's message or "Login failed" for a refused login, and "Failed to
      save token" when the keychain refused the token. */
  lemma LoginErrorDescription(s: AuthState, kc: Keychain.Keychain, response: Response,
                              deleteFault: Option<Keychain.FailureStatus>, addFault: Option<Keychain.FailureStatus>)
    ensures var a := Login(s, kc, response, deleteFault, addFault);
            response.Http? && response.status != 200 ==>
              Description(a.outcome.error) == Some(response.body.asApiError.GetOr(LoginFailedMessage))
    ensures var a := Login(s, kc, response, deleteFault, addFault);
            response.Http? && response.status == 200 && response.body.asLoginResponse.Some? && a.outcome.Failure? ==>
              Description(a.outcome.error) == Some(SaveFailedMessage)
  {
  }

  /** `logout`: the keychain delete's result is ignored; the session is always cleared. */
  function Logout(s: AuthState, kc: Keychain.Keychain, fault: Option<Keychain.FailureStatus>): (r: (AuthState, Keychain.Keychain))
    ensures !r.0.isAuthenticated && r.0.currentDriver.None?
    ensures fault.None? ==> Keychain.GetToken(r.1, None).None? && r.1 == kc - {Keychain.TokenItem}
    // The delete's result is discarded: a failed delete leaves the token stored.
    ensures fault.Some? ==> r.1 == kc
  {
    (AuthState(false, None), Keychain.DeleteToken(kc, fault).0)
  }

  /** `getStoredToken`. */
  function GetStoredToken(kc: Keychain.Keychain, fault: Option<Keychain.FailureStatus>): (r: Option<string>)
    ensures r.Some? ==> fault.None? && Keychain.TokenItem in kc && kc[Keychain.TokenItem] == Keychain.Utf8(r.value)
    ensures fault.None? && Keychain.TokenItem in kc && kc[Keychain.TokenItem].Utf8? ==> r.Some?
  {
    Keychain.GetToken(kc, fault)
  }

  /** The session agrees with the keychain when it is authenticated exactly
      while a non-empty token can be read. */
  predicate Agrees(s: AuthState, kc: Keychain.Keychain) {
    s.isAuthenticated <==> HasUsableToken(kc, None)
  }

  /** Construction, a login with a non-empty token, a refused login and a clean
      logout all leave the session agreeing with the keychain. */
  lemma AgreementIsKept(s: AuthState, kc: Keychain.Keychain, response: Response,
                        deleteFault: Option<Keychain.FailureStatus>, addFault: Option<Keychain.FailureStatus>)
    requires Agrees(s, kc)
    ensures Agrees(Init(kc, None), kc)
    ensures var a := Login(s, kc, response, deleteFault, addFault);
            (a.outcome.Success? && response.body.asLoginResponse.value.token != "")
            || (a.outcome.Failure? && a.outcome.error != KeychainFailed)
            ==> Agrees(a.state, a.keychain)
    ensures var (r, k) := Logout(s, kc, None); Agrees(r, k)
  {
  }

  /** The one exception: re-logging in when the keychain deletes the old token
      but refuses the new one leaves the session authenticated without a token. */
  lemma FailedSaveDropsToken(token: string, newToken: string)
    ensures var kc := map[Keychain.TokenItem := Keychain.Utf8(token)];
            var body := Body(Some(LoginResponse(newToken, None, None)), None);
            var a := Login(AuthState(true, None), kc, Http(200, body), None, Some(-25308));
            a.outcome == Failure(KeychainFailed) && a.state.isAuthenticated
            && Keychain.GetToken(a.keychain, None).None?
  {
  }
}

=== FILE: calendar_screen.dfy ===
/** The calendar screen's derived data: the marked-date map handed to the
    calendar widget, the rides listed under the selected date, and their count
    label. */
module CalendarScreen {
  import opened Wrappers
  import opened Rides
  import Sequences
  import Text
  import Decimal

  const Gold: string := "#CDB649"

  /** A calendar day's marking; an absent member is false or None. */
  datatype Marking = Marking(marked: bool, dotColor: Option<string>, selected: bool, selectedColor: Option<string>)

  /** The marking of a day with rides. */
  const Dot: Marking := Marking(true, Some(Gold), false, None)

  /** The truthy dates of the rides. */
  function RideDates(rides: seq<Ride>): set<string> {
    set r | r in rides && r.date != "" :: r.date
  }

  lemma RideDatesCons(rides: seq<Ride>)
    requires |rides| > 0
    ensures RideDates(rides) == RideDates(rides[1..]) + (if rides[0].date != "" then {rides[0].date} else {})
  {
    assert forall r :: r in rides <==> r == rides[0] || r in rides[1..];
  }

  /** `rides.forEach(...)`: marks every truthy ride date with a dot, over `acc`. */
  function MarkRides(rides: seq<Ride>, acc: map<string, Marking>): (m: map<string, Marking>)
    ensures m.Keys == acc.Keys + RideDates(rides)
    ensures forall d :: d in RideDates(rides) ==> m[d] == Dot
    ensures forall d :: d in acc && d !in RideDates(rides) ==> m[d] == acc[d]
    decreases |rides|
  {
    if |rides| == 0 then acc
    else
      RideDatesCons(rides);
      MarkRides(rides[1..], if rides[0].date != "" then acc[rides[0].date := Dot] else acc)
  }

  /** `getMarkedDates`: ride dates carry a dot; the selected date is marked
      selected on top of whatever it had. */
  function MarkedDates(rides: seq<Ride>, selected: string): (m: map<string, Marking>)
    ensures m.Keys == RideDates(rides) + {selected}
    ensures forall d :: d in RideDates(rides) && d != selected ==> m[d] == Dot
    ensures m[selected].selected && m[selected].selectedColor == Some(Gold)
    ensures m[selected].marked <==> selected in RideDates(rides)
    ensures forall d :: d in m && d != selected ==> !m[d].selected
  {
    var base := MarkRides(rides, map[]);
    var previous := if selected in base then base[selected] else Marking(false, None, false, None);
    base[selected := previous.(selected := true, selectedColor := Some(Gold))]
  }

  /** Ordering rides by their time string. */
  predicate TimeLe(a: Ride, b: Ride) {
    Text.LexLe(a.time, b.time)
  }

  lemma TimeLeIsTotalPreorder()
    ensures Sequences.TotalPreorder((a: Ride, b: Ride) => TimeLe(a, b))
  {
    forall a: Ride, b: Ride
      ensures TimeLe(a, b) || TimeLe(b, a)
    {
      Text.LexLeTotal(a.time, b.time);
    }
    forall a: Ride, b: Ride, c: Ride | TimeLe(a, b) && TimeLe(b, c)
      ensures TimeLe(a, c)
    {
      Text.LexLeTransitive(a.time, b.time, c.time);
    }
  }

  /** The list under the calendar: the selected date's rides sorted by time.
      Only the filtered copy is sorted; the store's list is an input and
      stays as it is. */
  function SelectedDateRides(rides: seq<Ride>, selected: string): (r: seq<Ride>)
    ensures multiset(r) == multiset(RidesForDate(rides, selected))
    ensures forall x :: x in r <==> x in rides && x.date == selected
    ensures forall i, j :: 0 <= i < j < |r| ==> Text.LexLe(r[i].time, r[j].time)
  {
    var onDate := RidesForDate(rides, selected);
    TimeLeIsTotalPreorder();
    var sorted := Sequences.SortBy(onDate, (a: Ride, b: Ride) => TimeLe(a, b));
    assert forall x :: x in sorted <==> x in multiset(onDate);
    var le := (a: Ride, b: Ride) => TimeLe(a, b);
    assert forall i, j :: 0 <= i < j < |sorted| ==> le(sorted[i], sorted[j]);
    sorted
  }

  /** "<n> ride" for exactly one ride, "<n> rides" otherwise. */
  function RideCountLabel(n: nat): (r: string)
    ensures |r| > 0 && (r[|r| - 1] == 's' <==> n != 1)
    ensures var k := Decimal.IntToString(n);
            && |k| < |r| && r[..|k|] == k && Decimal.ParseInt(k) == Some(n)
            && r[|k|..] == (if n == 1 then " ride" else " rides")
  {
    Decimal.IntRoundTrip(n, "");
    Decimal.IntToString(n) + " ride" + (if n != 1 then "s" else "")
  }
}

=== FILE: decimal.dfy ===
/** Decimal rendering of integers with its inverse. This is what Swift's string
    interpolation `"\(n)"` produces for an `Int`, and what JavaScript's `String(n)`
    produces for a whole number below 10^21 in magnitude. */
module Decimal {
  import opened Wrappers

  predicate IsDigit(c: char) {
    '0' <= c <= '9'
  }

  predicate AllDigits(s: string) {
    forall i :: 0 <= i < |s| ==> IsDigit(s[i])
  }

  function DigitValue(c: char): nat
    requires IsDigit(c)
  {
    (c as int) - ('0' as int)
  }

  function DigitChar(d: nat): (c: char)
    requires d < 10
    ensures IsDigit(c) && DigitValue(c) == d
  {
    ('0' as int + d) as char
  }

  /** The value of a string of decimal digits, most significant first. */
  function ValueOf(s: string): nat
    requires AllDigits(s)
  {
    if |s| == 0 then 0 else ValueOf(s[..|s| - 1]) * 10 + DigitValue(s[|s| - 1])
  }

  /** A digit string as a renderer writes it: non-empty, and without a leading
      zero unless it is the single digit 0. */
  predicate IsCanonical(s: string) {
    |s| > 0 && AllDigits(s) && (s[0] == '0' ==> |s| == 1)
  }

  /** The decimal digits of `n`. */
  function NatToString(n: nat): (r: string)
    ensures IsCanonical(r)
    ensures r[0] == '0' <==> n == 0
  {
    if n < 10 then [DigitChar(n)] else NatToString(n / 10) + [DigitChar(n % 10)]
  }

  /** `String(n)`: a minus sign before the digits of a negative number. */
  function IntToString(n: int): (r: string)
    ensures |r| > 0
  {
    if n < 0 then "-" + NatToString(-n) else NatToString(n)
  }

  /** The inverse of `IntToString`: accepts exactly the canonical renderings. */
  function ParseInt(s: string): (r: Option<int>)
  {
    if |s| > 1 && s[0] == '-' && IsCanonical(s[1..]) && s[1..] != "0" then Some(-(ValueOf(s[1..]) as int))
    else if IsCanonical(s) then Some(ValueOf(s))
    else None
  }

  lemma {:induction false} NatToStringValue(n: nat)
    ensures ValueOf(NatToString(n)) == n
  {
    var r := NatToString(n);
    if n >= 10 {
      NatToStringValue(n / 10);
      assert r[..|r| - 1] == NatToString(n / 10);
    }
  }

  lemma {:induction false} LeadingDigitPositive(s: string)
    requires AllDigits(s) && |s| > 0 && s[0] != '0'
    ensures ValueOf(s) > 0
  {
    if |s| > 1 {
      LeadingDigitPositive(s[..|s| - 1]);
    }
  }

  /** A canonical digit string is the rendering of its own value. */
  lemma {:induction false} CanonicalRendering(s: string)
    requires IsCanonical(s)
    ensures NatToString(ValueOf(s)) == s
  {
    if |s| > 1 {
      var p := s[..|s| - 1];
      assert IsCanonical(p);
      LeadingDigitPositive(p);
      CanonicalRendering(p);
      var v := ValueOf(s);
      assert v / 10 == ValueOf(p) && v % 10 == DigitValue(s[|s| - 1]);
      assert s == p + [s[|s| - 1]];
    }
  }

  /** Rendering then parsing gives the number back. */
  lemma {:induction false} RenderThenParse(n: int)
    ensures ParseInt(IntToString(n)) == Some(n)
  {
    var r := IntToString(n);
    if n < 0 {
      assert r[1..] == NatToString(-n);
      NatToStringValue(-n);
    } else {
      NatToStringValue(n);
    }
  }

  /** Parsing succeeds only on the rendering of the parsed number. */
  lemma {:induction false} ParseThenRender(s: string)
    requires ParseInt(s).Some?
    ensures IntToString(ParseInt(s).value) == s
  {
    if |s| > 1 && s[0] == '-' && IsCanonical(s[1..]) && s[1..] != "0" {
      CanonicalRendering(s[1..]);
      LeadingDigitPositive(s[1..]);
      assert s == "-" + s[1..];
    } else {
      CanonicalRendering(s);
    }
  }

  /** `ParseInt` and `IntToString` are inverse bijections between the integers
      and the canonical renderings. */
  lemma IntRoundTrip(n: int, s: string)
    ensures ParseInt(IntToString(n)) == Some(n)
    ensures ParseInt(s) == Some(n) ==> IntToString(n) == s
  {
    RenderThenParse(n);
    if ParseInt(s) == Some(n) {
      ParseThenRender(s);
    }
  }
}

=== FILE: fetch.dfy ===
/** The two JavaScript runtime checks both TypeScript contexts rely on:
    `response.ok` and the truthiness of a string-or-null value. */
module Fetch {
  import opened Wrappers

  /** `response.ok`: a status in the 2xx range. */
  predicate IsOk(status: int) {
    200 <= status <= 299
  }

  /** A string-or-null value JavaScript treats as true: present and non-empty. */
  predicate Truthy(t: Option<string>) {
    t.Some? && t.value != ""
  }
}

=== FILE: keychain.dfy ===
/** The Swift app's keychain wrapper. The keychain is a map from item keys
    (service, account) to stored data; the wrapper only ever touches the one
    item holding the session token. Each keychain call may be answered with a
    failure status, passed in as `fault`. */
module Keychain {
  import opened Wrappers

  datatype ItemKey = ItemKey(service: string, account: string)

  const Service: string := "com.safademirkan.lux-suv-driver"
  const TokenAccount: string := "jwt_token"
  /** The single slot the wrapper reads and writes. */
  const TokenItem: ItemKey := ItemKey(Service, TokenAccount)

  /** Stored data: the UTF-8 encoding of a string, or bytes that do not decode. */
  datatype Blob = Utf8(text: string) | Undecodable

  type Keychain = map<ItemKey, Blob>

  const ErrSecSuccess: int := 0
  const ErrSecDuplicateItem: int := -25299
  const ErrSecItemNotFound: int := -25300

  /** A status a keychain call can fail with other than the three the wrapper
      tells apart. */
  type FailureStatus = s: int | s != ErrSecSuccess && s != ErrSecItemNotFound && s != ErrSecDuplicateItem
    witness -25308

  /** `SecItemDelete`. */
  function SecItemDelete(kc: Keychain, key: ItemKey, fault: Option<FailureStatus>): (Keychain, int) {
    match fault
    case Some(st) => (kc, st)
    case None => if key in kc then (kc - {key}, ErrSecSuccess) else (kc, ErrSecItemNotFound)
  }

  /** `SecItemAdd`: refuses to overwrite an existing item. */
  function SecItemAdd(kc: Keychain, key: ItemKey, data: Blob, fault: Option<FailureStatus>): (Keychain, int) {
    match fault
    case Some(st) => (kc, st)
    case None => if key in kc then (kc, ErrSecDuplicateItem) else (kc[key := data], ErrSecSuccess)
  }

  /** `SecItemCopyMatching` for one item. */
  function SecItemCopyMatching(kc: Keychain, key: ItemKey, fault: Option<FailureStatus>): (int, Option<Blob>) {
    match fault
    case Some(st) => (st, None)
    case None => if key in kc then (ErrSecSuccess, Some(kc[key])) else (ErrSecItemNotFound, None)
  }

  /** `saveToken`: deletes any existing item, then adds the new one; true
      exactly when the add succeeded. Other items are never touched. */
  function SaveToken(kc: Keychain, token: string,
                     deleteFault: Option<FailureStatus>, addFault: Option<FailureStatus>): (r: (Keychain, bool))
    ensures r.1 ==> r.0 == kc[TokenItem := Utf8(token)]
    ensures !r.1 ==> r.0 == kc || r.0 == kc - {TokenItem}
    ensures deleteFault.None? && addFault.None? ==> r.1
    ensures addFault.Some? ==> !r.1
    // The add refuses a duplicate, so a failed delete of an existing item makes the save fail.
    ensures r.1 <==> addFault.None? && (deleteFault.None? || TokenItem !in kc)
    ensures !r.1 ==> r.0 == (if deleteFault.None? then kc - {TokenItem} else kc)
  {
    var (afterDelete, _) := SecItemDelete(kc, TokenItem, deleteFault);
    var (afterAdd, status) := SecItemAdd(afterDelete, TokenItem, Utf8(token), addFault);
    (afterAdd, status == ErrSecSuccess)
  }

  /** `getToken`: None on any lookup or decoding failure. */
  function GetToken(kc: Keychain, fault: Option<FailureStatus>): (r: Option<string>)
    ensures r.Some? <==> fault.None? && TokenItem in kc && kc[TokenItem].Utf8?
    ensures r.Some? ==> kc[TokenItem] == Utf8(r.value)
  {
    match SecItemCopyMatching(kc, TokenItem, fault)
    case (status, data) =>
      if status != ErrSecSuccess then None
      else match data
        case Some(Utf8(t)) => Some(t)
        case _ => None
  }

  /** `deleteToken`: a missing item counts as deleted. */
  function DeleteToken(kc: Keychain, fault: Option<FailureStatus>): (r: (Keychain, bool))
    ensures r.1 <==> fault.None?
    ensures r.1 ==> r.0 == kc - {TokenItem}
    ensures !r.1 ==> r.0 == kc
  {
    var (after, status) := SecItemDelete(kc, TokenItem, fault);
    (after, status == ErrSecSuccess || status == ErrSecItemNotFound)
  }

  /** A token that was saved is the token read back. */
  lemma SaveThenGet(kc: Keychain, token: string, deleteFault: Option<FailureStatus>, addFault: Option<FailureStatus>)
    requires SaveToken(kc, token, deleteFault, addFault).1
    ensures GetToken(SaveToken(kc, token, deleteFault, addFault).0, None) == Some(token)
  {
  }

  /** Saving overwrites: two saves leave only the second token, as one save of it would. */
  lemma SaveOverwrites(kc: Keychain, first: string, second: string)
    ensures SaveToken(SaveToken(kc, first, None, None).0, second, None, None)
            == SaveToken(kc, second, None, None)
  {
    var once := SaveToken(kc, first, None, None).0;
    assert (once - {TokenItem})[TokenItem := Utf8(second)] == kc[TokenItem := Utf8(second)];
  }

  /** Deleting is idempotent: a second delete also reports success and changes nothing,
      and afterwards no token can be read. */
  lemma DeleteIdempotent(kc: Keychain)
    ensures var (once, ok1) := DeleteToken(kc, None);
            var (twice, ok2) := DeleteToken(once, None);
            ok1 && ok2 && twice == once && GetToken(once, None).None?
  {
  }
}

=== FILE: login_models.dfy ===
/** The login response shape and the driver profile. */
module LoginModels {
  import opened Wrappers

  datatype Driver = Driver(
    id: string,
    username: string,
    name: Option<string>,
    email: Option<string>,
    phone: Option<string>,
    status: Option<string>)

  datatype LoginResponse = LoginResponse(token: string, driver: Option<Driver>, message: Option<string>)
}

=== FILE: login_screen.dfy ===
/** The JavaScript login screen's submit handler: the input guard, the
    arguments it hands to `login`, the loading flag around the call and the
    failure alert. */
module LoginScreen {
  import opened Wrappers
  import Text
  import AuthContext

  datatype Alert = Alert(title: string, message: Option<string>)

  const MissingFieldsAlert: Alert := Alert("Error", Some("Please enter both username and password"))
  const LoginFailedTitle: string := "Login Failed"

  /** What pressing the button does: shows an alert without calling `login`,
      or calls it with these arguments and shows the spinner until it settles. */
  datatype Submission =
    | Blocked(alert: Alert)
    | Pending(username: string, password: string, isLoading: bool)

  /** `handleLogin` up to the awaited `login` call. */
  function HandleLogin(username: string, password: string): (sub: Submission)
    ensures sub.Blocked? <==> Text.AllWhiteSpace(username) || Text.AllWhiteSpace(password)
    ensures sub.Blocked? ==> sub.alert == MissingFieldsAlert
    ensures sub.Pending? ==> sub.isLoading && sub.username == Text.Trim(username) && sub.password == password
    ensures sub.Pending? ==> sub.username != "" && Text.Trim(sub.username) == sub.username
  {
    Text.TrimEmptyIffBlank(username);
    Text.TrimEmptyIffBlank(password);
    Text.TrimIdempotent(username);
    if Text.Trim(username) == "" || Text.Trim(password) == "" then Blocked(MissingFieldsAlert)
    else Pending(Text.Trim(username), password, true)
  }

  /** The screen after `login` settles. */
  datatype Settled = Settled(isLoading: bool, alert: Option<Alert>)

  /** `handleLogin` after the awaited call: loading stops, and a failure alert
      carrying the result's error appears exactly when the login failed. */
  function FinishLogin(result: AuthContext.LoginResult): (r: Settled)
    ensures !r.isLoading
    ensures r.alert.Some? <==> !result.success
    ensures r.alert.Some? ==> r.alert.value.title == LoginFailedTitle && r.alert.value.message == result.error
  {
    if result.success then Settled(false, None)
    else Settled(false, Some(Alert(LoginFailedTitle, result.error)))
  }
}

=== FILE: ride_context.dfy ===
/** The ride store of the two JavaScript variants (the TypeScript context and the
    plain JavaScript context, which differ only in how an omitted `notes`
    argument is sent). HTTP is replaced by the response each request receives,
    and the stored token by the value `getStoredToken` resolved to; every
    operation reports the requests it sent. */
module RideContext {
  import opened Wrappers
  import opened Rides
  import opened Fetch

  /** A response body as the code reads it. */
  datatype Body =
    | RideList(items: seq<ApiRide>)         // a JSON array of backend rides
    | ErrorObject(message: Option<string>)  // a JSON object, `message` absent or null when None
    | NotJson(reason: string)               // `response.json()` rejects with this message

  /** What a `fetch` call settles to: a rejection, or a response with a status. */
  datatype Response = Thrown(message: string) | Answered(status: int, body: Body)

  /** The `notes` argument as a caller passes it. */
  datatype NotesArg = Undefined | Null | Str(s: string)

  /** The `notes` member of the JSON body `JSON.stringify({ status, notes })`
      produces: an undefined member is left out. */
  datatype NotesField = Omitted | JsonNull | JsonString(s: string)

  /** The HTTP requests the store sends, with their bearer token. */
  datatype Request =
    | GetRides(bearer: string)
    | PutRide(bearer: string, id: string, status: string, notes: NotesField)
    | DeleteRideRequest(bearer: string, id: string)

  datatype Fetched = Fetched(store: RideStore, sent: seq<Request>)
  datatype Mutated = Mutated(store: RideStore, success: bool, sent: seq<Request>)

  /** What the refresh after a successful mutation sees: the token it reads and
      the response to its listing request. */
  datatype Refetch = Refetch(token: Option<string>, response: Response)

  const FetchFallback: string := "Failed to fetch rides"
  const UpdateFallback: string := "Failed to update ride"
  const DeleteFallback: string := "Failed to delete ride"
  /** The TypeError an ok response whose body is not an array raises at `data.map`. */
  const NotAListMessage: string := "data.map is not a function"

  /** The error a non-ok response reports: the body's `message` when truthy,
      else `fallback`; a body that is not JSON rejects with its own reason. */
  function ServerMessage(body: Body, fallback: string): (m: string)
    ensures body.ErrorObject? && body.message.Some? && body.message.value != "" ==> m == body.message.value
    ensures body.RideList? || (body.ErrorObject? && body.message.GetOr("") == "") ==> m == fallback
    ensures body.NotJson? ==> m == body.reason
  {
    match body
    case ErrorObject(Some(msg)) => if msg != "" then msg else fallback
    case ErrorObject(None) => fallback
    case RideList(_) => fallback
    case NotJson(reason) => reason
  }

  /** The state once the listing request settles; the `finally` block clears
      `isLoading` on every path. */
  function SettleFetch(s: RideStore, response: Response): RideStore {
    match response
    case Thrown(msg) => s.(errorMessage := Some(msg), isLoading := false)
    case Answered(status, body) =>
      if IsOk(status) then
        match body
        case RideList(items) => s.(rides := FromApiList(items), isLoading := false)
        case ErrorObject(_) => s.(errorMessage := Some(NotAListMessage), isLoading := false)
        case NotJson(reason) => s.(errorMessage := Some(reason), isLoading := false)
      else s.(errorMessage := Some(ServerMessage(body, FetchFallback)), isLoading := false)
  }

  /** True when the response delivers a ride list the store adopts. */
  predicate Delivers(response: Response) {
    response.Answered? && IsOk(response.status) && response.body.RideList?
  }

  /** `fetchRides`. `if (!token)` turns back null and the empty string alike. */
  function FetchRides(s: RideStore, token: Option<string>, response: Response): (f: Fetched)
    // Without a token only the error changes and nothing is sent.
    ensures !Truthy(token) ==>
              f.sent == [] && f.store == s.(errorMessage := Some(NoTokenMessage))
    // With one, exactly one listing request goes out and loading is over afterwards.
    ensures Truthy(token) ==> f.sent == [GetRides(token.value)] && !f.store.isLoading
    // A delivered list replaces the rides wholesale, element by element, and clears the error.
    ensures Truthy(token) && Delivers(response) ==>
              && f.store.rides == FromApiList(response.body.items)
              && |f.store.rides| == |response.body.items|
              && f.store.errorMessage.None?
    // Any other outcome keeps the rides and reports an error.
    ensures !Delivers(response) ==> f.store.rides == s.rides && f.store.errorMessage.Some?
    ensures Truthy(token) && response.Thrown? ==> f.store.errorMessage == Some(response.message)
    // An ok body that is not JSON rejects with the parser's reason; one that is not an array
    // throws at `data.map`.
    ensures Truthy(token) && response.Answered? && IsOk(response.status) && response.body.NotJson? ==>
              f.store.errorMessage == Some(response.body.reason)
    ensures Truthy(token) && response.Answered? && IsOk(response.status) && response.body.ErrorObject? ==>
              f.store.errorMessage == Some(NotAListMessage)
    ensures Truthy(token) && response.Answered? && !IsOk(response.status) ==>
              f.store.errorMessage == Some(ServerMessage(response.body, FetchFallback))
  {
    if !Truthy(token) then Fetched(s.(errorMessage := Some(NoTokenMessage)), [])
    else Fetched(SettleFetch(BeginFetch(s), response), [GetRides(token.value)])
  }

  /** The shared tail of `updateRide` and `deleteRide` once a token was found
      and `request` sent: an ok response awaits one `fetchRides` and succeeds
      whatever that refresh does; anything else reports an error without one. */
  function Complete(s: RideStore, request: Request, fallback: string, response: Response, refetch: Refetch): (m: Mutated)
    ensures |m.sent| > 0 && m.sent[0] == request
    ensures m.success <==> response.Answered? && IsOk(response.status)
    ensures response.Thrown? ==> m.store.errorMessage == Some(response.message)
    ensures m.success ==> var f := FetchRides(s, refetch.token, refetch.response);
                          m.store == f.store && m.sent == [request] + f.sent
    ensures !m.success ==> m.sent == [request] && m.store.rides == s.rides
                           && m.store.isLoading == s.isLoading && m.store.errorMessage.Some?
  {
    match response
    case Thrown(msg) => Mutated(s.(errorMessage := Some(msg)), false, [request])
    case Answered(status, body) =>
      if IsOk(status) then
        var f := FetchRides(s, refetch.token, refetch.response);
        Mutated(f.store, true, [request] + f.sent)
      else Mutated(s.(errorMessage := Some(ServerMessage(body, fallback))), false, [request])
  }

  /** `updateRide(id, status, notes)`, given the JSON `notes` member. */
  function UpdateRide(s: RideStore, id: string, status: string, notes: NotesField,
                      token: Option<string>, response: Response, refetch: Refetch): (m: Mutated)
    ensures !Truthy(token) ==>
              !m.success && m.sent == [] && m.store == s.(errorMessage := Some(NoTokenMessage))
    ensures Truthy(token) ==> |m.sent| > 0 && m.sent[0] == PutRide(token.value, id, status, notes)
    ensures m.success <==> Truthy(token) && response.Answered? && IsOk(response.status)
    ensures Truthy(token) && response.Answered? && !IsOk(response.status) ==>
              m.store.errorMessage == Some(ServerMessage(response.body, UpdateFallback))
  {
    if !Truthy(token) then Mutated(s.(errorMessage := Some(NoTokenMessage)), false, [])
    else Complete(s, PutRide(token.value, id, status, notes), UpdateFallback, response, refetch)
  }

  /** `deleteRide(id)`. */
  function DeleteRide(s: RideStore, id: string,
                      token: Option<string>, response: Response, refetch: Refetch): (m: Mutated)
    ensures !Truthy(token) ==>
              !m.success && m.sent == [] && m.store == s.(errorMessage := Some(NoTokenMessage))
    ensures Truthy(token) ==> |m.sent| > 0 && m.sent[0] == DeleteRideRequest(token.value, id)
    ensures m.success <==> Truthy(token) && response.Answered? && IsOk(response.status)
    ensures Truthy(token) && response.Answered? && !IsOk(response.status) ==>
              m.store.errorMessage == Some(ServerMessage(response.body, DeleteFallback))
  {
    if !Truthy(token) then Mutated(s.(errorMessage := Some(NoTokenMessage)), false, [])
    else Complete(s, DeleteRideRequest(token.value, id), DeleteFallback, response, refetch)
  }

  /** The TypeScript signature `notes?: string`: an omitted argument leaves the
      member out of the body. */
  function TsNotes(arg: NotesArg): NotesField {
    match arg
    case Undefined => Omitted
    case Null => JsonNull
    case Str(t) => JsonString(t)
  }

  /** The JavaScript signature `notes = null`: an omitted argument is sent as null. */
  function JsNotes(arg: NotesArg): NotesField {
    match arg
    case Undefined => JsonNull
    case Null => JsonNull
    case Str(t) => JsonString(t)
  }

  /** The JavaScript `updateRide`. */
  function UpdateRideJs(s: RideStore, id: string, status: string, notes: NotesArg,
                        token: Option<string>, response: Response, refetch: Refetch): (m: Mutated)
    ensures Truthy(token) ==> |m.sent| > 0 && m.sent[0].PutRide? && m.sent[0].notes != Omitted
    ensures Truthy(token) && notes.Undefined? ==> |m.sent| > 0 && m.sent[0].notes == JsonNull
  {
    UpdateRide(s, id, status, JsNotes(notes), token, response, refetch)
  }

  /** The two variants send the same body except when `notes` is omitted, where
      the TypeScript body leaves the member out and the JavaScript body sends null. */
  lemma NotesDefaults(arg: NotesArg)
    ensures TsNotes(arg) == JsNotes(arg) <==> !arg.Undefined?
    ensures JsNotes(arg) != Omitted
    ensures TsNotes(arg) == Omitted <==> arg.Undefined?
  {
  }

  /** The number of listing requests in a request log. */
  function ListingCount(sent: seq<Request>): nat {
    if |sent| == 0 then 0 else (if sent[0].GetRides? then 1 else 0) + ListingCount(sent[1..])
  }

  /** A mutation lists the rides again at most once, only when it succeeded, and
      exactly once when the refresh still finds a token. */
  lemma MutationRefetchesOnceOnSuccess(s: RideStore, id: string, status: string, notes: NotesField,
                                       token: Option<string>, response: Response, refetch: Refetch)
    ensures var m := UpdateRide(s, id, status, notes, token, response, refetch);
            ListingCount(m.sent) == if m.success && Truthy(refetch.token) then 1 else 0
    ensures var m := DeleteRide(s, id, token, response, refetch);
            ListingCount(m.sent) == if m.success && Truthy(refetch.token) then 1 else 0
  {
    var f := FetchRides(s, refetch.token, refetch.response);
    assert ListingCount(f.sent) == if Truthy(refetch.token) then 1 else 0 by {
      if Truthy(refetch.token) {
        assert f.sent[1..] == [];
      }
    }
    var u := UpdateRide(s, id, status, notes, token, response, refetch);
    var d := DeleteRide(s, id, token, response, refetch);
    if Truthy(token) {
      assert u.sent[1..] == (if u.success then f.sent else []);
      assert d.sent[1..] == (if d.success then f.sent else []);
    }
  }

  /** What every ride the store holds looks like: a ride built by the mapping. */
  predicate Mapped(r: Ride) {
    r.status == DefaultStatus && r.fare.None? && r.distance.None? && r.duration.None?
  }

  /** The store is idle between operations and holds only mapped rides. */
  predicate Valid(s: RideStore) {
    !s.isLoading && forall r :: r in s.rides ==> Mapped(r)
  }

  /** The initial store is valid and every operation keeps it valid. */
  lemma ValidIsInvariant(s: RideStore, id: string, status: string, notes: NotesField,
                         token: Option<string>, response: Response, refetch: Refetch)
    requires Valid(s)
    ensures Valid(InitialStore)
    ensures Valid(FetchRides(s, token, response).store)
    ensures Valid(UpdateRide(s, id, status, notes, token, response, refetch).store)
    ensures Valid(DeleteRide(s, id, token, response, refetch).store)
  {
    var r := refetch.response;
    assert Delivers(r) ==> forall x :: x in FromApiList(r.body.items) ==> Mapped(x);
    assert Delivers(response) ==> forall x :: x in FromApiList(response.body.items) ==> Mapped(x);
  }
}

=== FILE: ride_models.dfy ===
/** The Swift app's ride model file: the ride status enumeration with its raw
    values, display names and colours, the update request body, and the date
    accessors of the Swift ride record. */
module RideModels {
  import opened Wrappers

  datatype RideStatus = Requested | Accepted | InProgress | Completed | Cancelled

  /** `RideStatus.allCases`, in declaration order. */
  const AllStatuses: seq<RideStatus> := [Requested, Accepted, InProgress, Completed, Cancelled]

  /** The raw value each case is encoded as on the wire. */
  function RawValue(s: RideStatus): string {
    match s
    case Requested => "requested"
    case Accepted => "accepted"
    case InProgress => "in_progress"
    case Completed => "completed"
    case Cancelled => "cancelled"
  }

  /** `RideStatus(rawValue:)`: the case with that raw value, if any. */
  function FromRawValue(raw: string): (r: Option<RideStatus>)
    ensures r.Some? ==> RawValue(r.value) == raw
    ensures r.None? ==> forall s :: RawValue(s) != raw
  {
    if raw == "requested" then Some(Requested)
    else if raw == "accepted" then Some(Accepted)
    else if raw == "in_progress" then Some(InProgress)
    else if raw == "completed" then Some(Completed)
    else if raw == "cancelled" then Some(Cancelled)
    else None
  }

  /** Decoding a raw value recovers the case, so distinct cases have distinct
      raw values; and every case is listed exactly once in `allCases`. */
  lemma RawValueRoundTrip(s: RideStatus, t: RideStatus)
    ensures FromRawValue(RawValue(s)) == Some(s)
    ensures RawValue(s) == RawValue(t) ==> s == t
    ensures s in AllStatuses && |AllStatuses| == 5
    ensures forall i, j :: 0 <= i < j < |AllStatuses| ==> AllStatuses[i] != AllStatuses[j]
  {
  }

  /** The label shown to the driver. */
  function DisplayName(s: RideStatus): string {
    match s
    case Requested => "Requested"
    case Accepted => "Accepted"
    case InProgress => "In Progress"
    case Completed => "Completed"
    case Cancelled => "Cancelled"
  }

  /** No two cases share a label. */
  lemma DisplayNameInjective(s: RideStatus, t: RideStatus)
    ensures DisplayName(s) == DisplayName(t) ==> s == t
    ensures |DisplayName(s)| > 0
  {
  }

  /** The colour name the views tint a status with. */
  function Color(s: RideStatus): (c: string)
    ensures c in {"blue", "green", "orange", "gray", "red"}
    ensures c == "blue" <==> s == Requested
    ensures c == "green" <==> s == Accepted
    ensures c == "orange" <==> s == InProgress
    ensures c == "gray" <==> s == Completed
    ensures c == "red" <==> s == Cancelled
  {
    match s
    case Requested => "blue"
    case Accepted => "green"
    case InProgress => "orange"
    case Completed => "gray"
    case Cancelled => "red"
  }

  /** The JSON body of a status update: a required status and optional notes. */
  datatype RideUpdateRequest = RideUpdateRequest(status: RideStatus, notes: Option<string>)

  /** The `Ride` struct of the Swift model file, with its ISO-8601 time stamps. */
  datatype RideRecord = RideRecord(
    id: string,
    customerId: Option<string>,
    customerName: Option<string>,
    customerPhone: Option<string>,
    pickupLocation: string,
    dropoffLocation: string,
    pickupTime: string,
    dropoffTime: Option<string>,
    status: RideStatus,
    fare: Option<real>,
    distance: Option<real>,
    duration: Option<int>,
    notes: Option<string>,
    createdAt: string,
    updatedAt: string)

  /** `pickupDate`: the pickup time stamp parsed by the ISO-8601 parser `iso`. */
  function PickupDate(r: RideRecord, iso: string -> Option<int>): Option<int>
  {
    iso(r.pickupTime)
  }

  /** `dropoffDate`: absent whenever the drop-off time stamp is, else the parse of it. */
  function DropoffDate(r: RideRecord, iso: string -> Option<int>): (d: Option<int>)
    ensures r.dropoffTime.None? ==> d.None?
    // Both accessors read their time stamp with the same parser.
    ensures r.dropoffTime == Some(r.pickupTime) ==> d == PickupDate(r, iso)
    ensures r.dropoffTime.Some? ==> d == iso(r.dropoffTime.value)
  {
    match r.dropoffTime
    case None => None
    case Some(t) => iso(t)
  }
}

=== FILE: ride_service.dfy ===
/** The ride store of the Swift app. A response body is represented by the
    outcome of each decoding the service attempts on it; the store state and
    the queries are the ones shared with the JavaScript variants. */
module RideService {
  import opened Wrappers
  import opened Rides
  import RideModels
  import Decimal
  import Sequences

  /** The decodings of one response body: as the backend's listing, as a plain
      `[Ride]`, as a `RidesResponse` wrapper, and as an `APIError` (whose
      `message` is required). None where that decoding throws. */
  datatype Body = Body(
    asListing: Option<seq<ApiRide>>,
    asRides: Option<seq<Ride>>,
    asWrapped: Option<seq<Ride>>,
    asApiError: Option<string>)

  /** What `URLSession.data(for:)` produces: a thrown error with its localized
      description, a response that is not HTTP, or an HTTP status and body. */
  datatype Response = Failed(description: string) | NotHttp | Http(status: int, body: Body)

  /** The requests the service sends, with their bearer token. */
  datatype Request =
    | GetRides(bearer: string)
    | PutRide(bearer: string, id: string, body: RideModels.RideUpdateRequest)
    | DeleteRideRequest(bearer: string, id: string)

  datatype Fetched = Fetched(store: RideStore, sent: seq<Request>)
  datatype Mutated = Mutated(store: RideStore, success: bool, sent: seq<Request>)
  datatype Refetch = Refetch(token: Option<string>, response: Response)

  const InvalidResponseMessage: string := "Invalid response"
  const ParseFailureMessage: string := "Failed to parse rides data. Please check the API response format."

  /** "Failed to <action> (Status: <code>)". */
  function StatusMessage(action: string, code: int): string
  {
    "Failed to " + action + " (Status: " + Decimal.IntToString(code) + ")"
  }

  /** The three decodings of a 200 body, in the order they are tried; the first
      that succeeds wins. */
  function DecodeRides(b: Body): (r: Option<seq<Ride>>)
    ensures b.asListing.Some? ==> r == Some(FromApiList(b.asListing.value))
    ensures b.asListing.None? && b.asRides.Some? ==> r == b.asRides
    ensures b.asListing.None? && b.asRides.None? ==> r == b.asWrapped
  {
    match b.asListing
    case Some(items) => Some(FromApiList(items))
    case None =>
      match b.asRides
      case Some(rides) => Some(rides)
      case None => b.asWrapped
  }

  /** The error a non-200 response reports: the decoded `APIError` message, or
      the status fallback for `action`. */
  function RejectionMessage(b: Body, action: string, code: int): (m: string)
    ensures b.asApiError.Some? ==> m == b.asApiError.value
    ensures b.asApiError.None? ==> m == StatusMessage(action, code)
  {
    match b.asApiError
    case Some(msg) => msg
    case None => StatusMessage(action, code)
  }

  /** Every exit after loading has started sets `isLoading` back to false. */
  function SettleFetch(s: RideStore, response: Response): RideStore {
    match response
    case Failed(d) => s.(errorMessage := Some(d), isLoading := false)
    case NotHttp => s.(errorMessage := Some(InvalidResponseMessage), isLoading := false)
    case Http(code, body) =>
      if code == 200 then
        match DecodeRides(body)
        case Some(rides) => s.(rides := rides, isLoading := false)
        case None => s.(errorMessage := Some(ParseFailureMessage), isLoading := false)
      else s.(errorMessage := Some(RejectionMessage(body, "fetch rides", code)), isLoading := false)
  }

  /** True when the response carries a 200 body one of the decodings accepts. */
  predicate Delivers(response: Response) {
    response.Http? && response.status == 200 && DecodeRides(response.body).Some?
  }

  /** `fetchRides`. A stored empty token is still a token here. */
  function FetchRides(s: RideStore, token: Option<string>, response: Response): (f: Fetched)
    ensures token.None? ==> f.sent == [] && f.store == s.(errorMessage := Some(NoTokenMessage))
    ensures token.Some? ==> f.sent == [GetRides(token.value)] && !f.store.isLoading
    ensures token.Some? && Delivers(response) ==>
              f.store.rides == DecodeRides(response.body).value && f.store.errorMessage.None?
    ensures !Delivers(response) ==> f.store.rides == s.rides && f.store.errorMessage.Some?
    ensures token.Some? && response.Http? && response.status == 200 && !Delivers(response) ==>
              f.store.errorMessage == Some(ParseFailureMessage)
    ensures token.Some? && response.Http? && response.status != 200 ==>
              f.store.errorMessage == Some(RejectionMessage(response.body, "fetch rides", response.status))
    ensures token.Some? && response.Failed? ==> f.store.errorMessage == Some(response.description)
    ensures token.Some? && response.NotHttp? ==> f.store.errorMessage == Some(InvalidResponseMessage)
  {
    match token
    case None => Fetched(s.(errorMessage := Some(NoTokenMessage)), [])
    case Some(t) => Fetched(SettleFetch(BeginFetch(s), response), [GetRides(t)])
  }

  /** The shared tail of `updateRide` and `deleteRide` once `request` is sent. */
  function Complete(s: RideStore, request: Request, action: string, response: Response, refetch: Refetch): (m: Mutated)
    ensures |m.sent| > 0 && m.sent[0] == request
    ensures m.success <==> response.Http? && response.status == 200
    ensures response.Failed? ==> m.store.errorMessage == Some(response.description)
    ensures response.NotHttp? ==> m.store.errorMessage == Some(InvalidResponseMessage)
    ensures m.success ==> var f := FetchRides(s, refetch.token, refetch.response);
                          m.store == f.store && m.sent == [request] + f.sent
    ensures !m.success ==> m.sent == [request] && m.store.rides == s.rides
                           && m.store.isLoading == s.isLoading && m.store.errorMessage.Some?
  {
    match response
    case Failed(d) => Mutated(s.(errorMessage := Some(d)), false, [request])
    case NotHttp => Mutated(s.(errorMessage := Some(InvalidResponseMessage)), false, [request])
    case Http(code, body) =>
      if code == 200 then
        var f := FetchRides(s, refetch.token, refetch.response);
        Mutated(f.store, true, [request] + f.sent)
      else Mutated(s.(errorMessage := Some(RejectionMessage(body, action, code))), false, [request])
  }

  /** `updateRide(id:status:notes:)`. */
  function UpdateRide(s: RideStore, id: string, status: RideModels.RideStatus, notes: Option<string>,
                      token: Option<string>, response: Response, refetch: Refetch): (m: Mutated)
    ensures token.None? ==> !m.success && m.sent == [] && m.store == s.(errorMessage := Some(NoTokenMessage))
    ensures token.Some? ==>
              |m.sent| > 0 && m.sent[0] == PutRide(token.value, id, RideModels.RideUpdateRequest(status, notes))
    ensures m.success <==> token.Some? && response.Http? && response.status == 200
    ensures token.Some? && response.Http? && response.status != 200 ==>
              m.store.errorMessage == Some(RejectionMessage(response.body, "update ride", response.status))
  {
    match token
    case None => Mutated(s.(errorMessage := Some(NoTokenMessage)), false, [])
    case Some(t) =>
      Complete(s, PutRide(t, id, RideModels.RideUpdateRequest(status, notes)), "update ride", response, refetch)
  }

  /** `deleteRide(id:)`. */
  function DeleteRide(s: RideStore, id: string,
                      token: Option<string>, response: Response, refetch: Refetch): (m: Mutated)
    ensures token.None? ==> !m.success && m.sent == [] && m.store == s.(errorMessage := Some(NoTokenMessage))
    ensures token.Some? ==> |m.sent| > 0 && m.sent[0] == DeleteRideRequest(token.value, id)
    ensures m.success <==> token.Some? && response.Http? && response.status == 200
    ensures token.Some? && response.Http? && response.status != 200 ==>
              m.store.errorMessage == Some(RejectionMessage(response.body, "delete ride", response.status))
  {
    match token
    case None => Mutated(s.(errorMessage := Some(NoTokenMessage)), false, [])
    case Some(t) => Complete(s, DeleteRideRequest(t, id), "delete ride", response, refetch)
  }

  /** The parser for "yyyy-MM-dd HH:mm" applied to `"\(date) \(time)"`; the
      filter and the sort are the shared ones. */
  function UpcomingRides(rides: seq<Ride>, parse: DateParser, now: int): (r: seq<Ride>)
    ensures multiset(r) == multiset(Sequences.Filter(rides, (x: Ride) => IsUpcoming(parse, now, x)))
    ensures forall x :: x in r ==> PickupAt(parse, x).Some? && PickupAt(parse, x).value > now
    ensures forall x :: x in r ==> x.status in {"requested", "accepted"}
    ensures forall x :: x in rides && IsUpcoming(parse, now, x) ==> x in r
    ensures InPickupOrder(parse, r)
  {
    Rides.UpcomingRides(rides, parse, now)
  }

  /** The ride `addSampleRide` builds; `stamp` is the rendering of the current
      time the id is made from. */
  function SampleRide(stamp: string): Ride {
    Ride(
      id := "sample-" + stamp,
      name := Some("Sample Customer"),
      email := Some("sample@example.com"),
      phoneNumber := Some("555-0123"),
      rideType := Some("hourly"),
      pickup := "Sample Pickup Location",
      dropoff := "Sample Dropoff Location",
      date := "2025-06-25",
      time := "15:30",
      numberOfPassengers := Some(2),
      numberOfLuggage := Some(1),
      additionalNotes := Some("This is a sample ride for testing"),
      status := RideModels.RawValue(RideModels.Requested),
      fare := Some(150.0),
      distance := Some(25.5),
      duration := Some(120))
  }

  /** `addSampleRide`: appends one ride and changes nothing else. */
  function AddSampleRide(s: RideStore, stamp: string): (r: RideStore)
    ensures |r.rides| == |s.rides| + 1
    ensures r.rides[..|s.rides|] == s.rides
    ensures r.rides[|s.rides|].id == "sample-" + stamp && r.rides[|s.rides|].status == DefaultStatus
    ensures r.isLoading == s.isLoading && r.errorMessage == s.errorMessage
  {
    s.(rides := s.rides + [SampleRide(stamp)])
  }

  /** Between operations the service is idle; every operation keeps it so. */
  lemma IdleIsInvariant(s: RideStore, id: string, status: RideModels.RideStatus, notes: Option<string>,
                        token: Option<string>, response: Response, refetch: Refetch, stamp: string)
    requires !s.isLoading
    ensures !FetchRides(s, token, response).store.isLoading
    ensures !UpdateRide(s, id, status, notes, token, response, refetch).store.isLoading
    ensures !DeleteRide(s, id, token, response, refetch).store.isLoading
    ensures !AddSampleRide(s, stamp).isLoading
  {
  }
}

=== FILE: ride_update_modal.dfy ===
/** The JavaScript ride update sheet: the status choices, the initial
    selection and notes, and the arguments it submits. */
module RideUpdateModal {
  import opened Wrappers
  import Text
  import RideModels
  import Rides
  import RideContext

  /** One choice: the value sent and the label shown (`label` in the source). */
  datatype StatusOption = StatusOption(value: string, caption: string)

  /** `RIDE_STATUSES`. */
  const RideStatusOptions: seq<StatusOption> := [
    StatusOption("requested", "Requested"),
    StatusOption("accepted", "Accepted"),
    StatusOption("in_progress", "In Progress"),
    StatusOption("completed", "Completed"),
    StatusOption("cancelled", "Cancelled")
  ]

  /** The sheet offers exactly the status enumeration, in its declaration
      order, labelled with its display names. */
  lemma OptionsMatchStatusEnum()
    ensures |RideStatusOptions| == |RideModels.AllStatuses|
    ensures forall i :: 0 <= i < |RideStatusOptions| ==>
              && RideStatusOptions[i].value == RideModels.RawValue(RideModels.AllStatuses[i])
              && RideStatusOptions[i].caption == RideModels.DisplayName(RideModels.AllStatuses[i])
  {
  }

  /** `ride?.status || 'requested'`. */
  function InitialStatus(ride: Option<Rides.Ride>): (r: string)
    ensures ride.Some? && ride.value.status != "" ==> r == ride.value.status
    ensures ride.None? || ride.value.status == "" ==> r == Rides.DefaultStatus
    ensures r != ""
  {
    match ride
    case Some(x) => if x.status != "" then x.status else Rides.DefaultStatus
    case None => Rides.DefaultStatus
  }

  /** `ride?.additionalNotes || ''`. */
  function InitialNotes(ride: Option<Rides.Ride>): (r: string)
    ensures ride.Some? && ride.value.additionalNotes.Some? ==> r == ride.value.additionalNotes.value
    ensures ride.None? || ride.value.additionalNotes.None? ==> r == ""
  {
    match ride
    case Some(x) => x.additionalNotes.GetOr("")
    case None => ""
  }

  /** `handleUpdate` submits the selected status unchanged and `notes.trim() || null`:
      null exactly when the notes are blank, else the trimmed text. */
  function SubmittedNotes(notes: string): (r: RideContext.NotesArg)
    ensures r.Null? <==> Text.AllWhiteSpace(notes)
    ensures r.Str? ==> r.s == Text.Trim(notes) && r.s != ""
    ensures !r.Undefined?
  {
    Text.TrimEmptyIffBlank(notes);
    var t := Text.Trim(notes);
    if t == "" then RideContext.Null else RideContext.Str(t)
  }
}

=== FILE: rides.dfy ===
/** The ride entity shared by the app variants, the mapping from the backend's
    ride listing into it, the state of a ride store, and the two read-only views
    over the store: rides on a calendar date and upcoming rides. */
module Rides {
  import opened Wrappers
  import Decimal
  import RideModels
  import Sequences

  /** A ride as the client holds it. `fare` and `distance` are floating-point in
      the source and opaque here. */
  datatype Ride = Ride(
    id: string,
    name: Option<string>,
    email: Option<string>,
    phoneNumber: Option<string>,
    rideType: Option<string>,
    pickup: string,
    dropoff: string,
    date: string,
    time: string,
    numberOfPassengers: Option<int>,
    numberOfLuggage: Option<int>,
    additionalNotes: Option<string>,
    status: string,
    fare: Option<real>,
    distance: Option<real>,
    duration: Option<int>)

  /** The largest integer a JavaScript number holds exactly (`Number.MAX_SAFE_INTEGER`). */
  const MaxSafeInteger: int := 9007199254740991

  /** A whole number `JSON.parse` yields without rounding. Every such number is
      below 10^21, so `String` renders it in plain decimal, without an exponent. */
  type SafeInteger = n: int | -MaxSafeInteger <= n <= MaxSafeInteger

  /** A backend ride id: a JSON number or a JSON string. */
  datatype ApiId = NumericId(n: SafeInteger) | TextId(text: string)

  /** One element of the backend's ride listing, with its snake_case fields. */
  datatype ApiRide = ApiRide(
    id: ApiId,
    yourName: Option<string>,
    email: Option<string>,
    phoneNumber: Option<string>,
    rideType: Option<string>,
    pickupLocation: string,
    dropoffLocation: string,
    date: string,
    time: string,
    numberOfPassengers: Option<int>,
    numberOfLuggage: Option<int>,
    additionalNotes: Option<string>)

  /** The status every fetched ride is given. */
  const DefaultStatus: string := RideModels.RawValue(RideModels.Requested)

  /** `String(apiRide.id)`. */
  function IdString(id: ApiId): string {
    match id
    case NumericId(n) => Decimal.IntToString(n)
    case TextId(t) => t
  }

  /** The field mapping applied to every fetched ride. The status is forced to
      "requested" and the fare, distance and duration are dropped, whatever the
      backend sent. */
  function FromApi(a: ApiRide): (r: Ride)
    ensures r.status == DefaultStatus
    ensures r.fare.None? && r.distance.None? && r.duration.None?
  {
    Ride(
      id := IdString(a.id),
      name := a.yourName,
      email := a.email,
      phoneNumber := a.phoneNumber,
      rideType := a.rideType,
      pickup := a.pickupLocation,
      dropoff := a.dropoffLocation,
      date := a.date,
      time := a.time,
      numberOfPassengers := a.numberOfPassengers,
      numberOfLuggage := a.numberOfLuggage,
      additionalNotes := a.additionalNotes,
      status := DefaultStatus,
      fare := None,
      distance := None,
      duration := None)
  }

  /** `data.map(apiRide => ...)`: the mapping applied element-wise. */
  function FromApiList(items: seq<ApiRide>): (rs: seq<Ride>)
    ensures |rs| == |items|
    ensures forall i :: 0 <= i < |items| ==> rs[i] == FromApi(items[i])
  {
    seq(|items|, i requires 0 <= i < |items| => FromApi(items[i]))
  }

  /** The backend record a ride was mapped from, given whether its id was a
      number; None when a numeric id does not parse back. */
  function ToApi(r: Ride, numericId: bool): Option<ApiRide> {
    var id :=
      if !numericId then Some(TextId(r.id))
      else match Decimal.ParseInt(r.id)
        case Some(n) => if -MaxSafeInteger <= n <= MaxSafeInteger then Some(NumericId(n)) else None
        case None => None;
    match id
    case None => None
    case Some(i) =>
      Some(ApiRide(i, r.name, r.email, r.phoneNumber, r.rideType, r.pickup, r.dropoff,
                   r.date, r.time, r.numberOfPassengers, r.numberOfLuggage, r.additionalNotes))
  }

  /** The mapping loses nothing the backend sent: every field, the id included,
      can be read back from the mapped ride. */
  lemma MappingRoundTrip(a: ApiRide)
    ensures ToApi(FromApi(a), a.id.NumericId?) == Some(a)
  {
    if a.id.NumericId? {
      Decimal.IntRoundTrip(a.id.n, "");
    }
  }

  /** The observable state of a ride store. */
  datatype RideStore = RideStore(rides: seq<Ride>, isLoading: bool, errorMessage: Option<string>)

  const InitialStore: RideStore := RideStore([], false, None)

  /** The error every store operation reports when no token is stored. */
  const NoTokenMessage: string := "No authentication token found"

  /** The state while the listing request is in flight: loading, no error,
      and the rides kept. */
  function BeginFetch(s: RideStore): (r: RideStore)
    ensures r.isLoading && r.errorMessage.None? && r.rides == s.rides
  {
    s.(isLoading := true, errorMessage := None)
  }

  /** `rides.filter(ride => ride.date === target)`, `target` being an already
      formatted YYYY-MM-DD string. */
  function RidesForDate(rides: seq<Ride>, target: string): (r: seq<Ride>)
    ensures forall x :: x in r <==> x in rides && x.date == target
    ensures forall x: Ride :: x.date == target ==> multiset(r)[x] == multiset(rides)[x]
  {
    Sequences.Filter(rides, (x: Ride) => x.date == target)
  }

  /** Rides on a date keep their relative order: the view of a concatenation is
      the concatenation of the views. */
  lemma RidesForDateKeepsOrder(a: seq<Ride>, b: seq<Ride>, target: string)
    ensures RidesForDate(a + b, target) == RidesForDate(a, target) + RidesForDate(b, target)
  {
    Sequences.FilterConcat(a, b, (x: Ride) => x.date == target);
  }

  /** The platform's date-time parser applied to "<date> <time>"; None when it
      yields no valid instant. */
  type DateParser = string -> Option<int>

  function PickupAt(parse: DateParser, r: Ride): Option<int> {
    parse(r.date + " " + r.time)
  }

  /** A ride counts as upcoming when its pickup instant parses, lies strictly
      after `now`, and its status is requested or accepted. */
  predicate IsUpcoming(parse: DateParser, now: int, r: Ride) {
    && PickupAt(parse, r).Some?
    && PickupAt(parse, r).value > now
    && (r.status == RideModels.RawValue(RideModels.Requested)
        || r.status == RideModels.RawValue(RideModels.Accepted))
  }

  /** Pickup order; rides whose time does not parse sort first (they never reach
      the sort, since the filter removes them). */
  predicate EarlierOrSame(parse: DateParser, a: Ride, b: Ride) {
    match (PickupAt(parse, a), PickupAt(parse, b))
    case (None, _) => true
    case (Some(_), None) => false
    case (Some(x), Some(y)) => x <= y
  }

  lemma EarlierOrSameIsTotalPreorder(parse: DateParser)
    ensures Sequences.TotalPreorder((a: Ride, b: Ride) => EarlierOrSame(parse, a, b))
  {
  }

  /** Every ride of `s` has a pickup instant, and they never decrease. */
  predicate InPickupOrder(parse: DateParser, s: seq<Ride>) {
    forall i, j :: 0 <= i < j < |s| ==>
      && PickupAt(parse, s[i]).Some? && PickupAt(parse, s[j]).Some?
      && PickupAt(parse, s[i]).value <= PickupAt(parse, s[j]).value
  }

  /** Sorting rides that are all upcoming yields upcoming rides in pickup order. */
  lemma SortedUpcoming(parse: DateParser, now: int, kept: seq<Ride>, sorted: seq<Ride>)
    requires forall x :: x in kept ==> IsUpcoming(parse, now, x)
    requires multiset(sorted) == multiset(kept)
    requires Sequences.Sorted(sorted, (a: Ride, b: Ride) => EarlierOrSame(parse, a, b))
    ensures forall x :: x in sorted <==> x in kept
    ensures InPickupOrder(parse, sorted)
  {
    forall x
      ensures x in sorted <==> x in kept
    {
      assert x in sorted <==> x in multiset(sorted);
      assert x in kept <==> x in multiset(kept);
    }
    var le := (a: Ride, b: Ride) => EarlierOrSame(parse, a, b);
    forall i, j | 0 <= i < j < |sorted|
      ensures PickupAt(parse, sorted[i]).Some? && PickupAt(parse, sorted[j]).Some?
      ensures PickupAt(parse, sorted[i]).value <= PickupAt(parse, sorted[j]).value
    {
      assert le(sorted[i], sorted[j]);
      assert sorted[i] in kept && sorted[j] in kept;
    }
  }

  /** The upcoming rides, earliest pickup first. */
  function UpcomingRides(rides: seq<Ride>, parse: DateParser, now: int): (r: seq<Ride>)
    ensures multiset(r) == multiset(Sequences.Filter(rides, (x: Ride) => IsUpcoming(parse, now, x)))
    ensures forall x :: x in r <==> x in rides && IsUpcoming(parse, now, x)
    ensures InPickupOrder(parse, r)
  {
    var kept := Sequences.Filter(rides, (x: Ride) => IsUpcoming(parse, now, x));
    EarlierOrSameIsTotalPreorder(parse);
    var sorted := Sequences.SortBy(kept, (a: Ride, b: Ride) => EarlierOrSame(parse, a, b));
    SortedUpcoming(parse, now, kept, sorted);
    sorted
  }
}

=== FILE: sequences.dfy ===
/** Order-preserving filtering and stable sorting of sequences: the JavaScript
    `Array.prototype.filter` and `Array.prototype.sort` the ride views use. */
module Sequences {

  /** The elements of `s` satisfying `p`, in their original order. */
  function Filter<T(!new)>(s: seq<T>, p: T -> bool): (r: seq<T>)
    ensures |r| <= |s|
    ensures forall x :: x in r <==> x in s && p(x)
    ensures forall x :: multiset(r)[x] == if p(x) then multiset(s)[x] else 0
  {
    if |s| == 0 then []
    else
      assert s == [s[0]] + s[1..];
      (if p(s[0]) then [s[0]] else []) + Filter(s[1..], p)
  }

  /** Filtering commutes with concatenation: kept elements keep their relative order. */
  lemma {:induction false} FilterConcat<T(!new)>(a: seq<T>, b: seq<T>, p: T -> bool)
    ensures Filter(a + b, p) == Filter(a, p) + Filter(b, p)
  {
    if |a| > 0 {
      assert (a + b)[1..] == a[1..] + b;
      FilterConcat(a[1..], b, p);
    } else {
      assert a + b == b;
    }
  }

  /** `le` is total and transitive: a comparator `sort` can rely on. */
  ghost predicate TotalPreorder<T(!new)>(le: (T, T) -> bool) {
    && (forall a, b :: le(a, b) || le(b, a))
    && (forall a, b, c :: le(a, b) && le(b, c) ==> le(a, c))
  }

  predicate Sorted<T>(s: seq<T>, le: (T, T) -> bool) {
    forall i, j :: 0 <= i < j < |s| ==> le(s[i], s[j])
  }

  /** Places `x` before the first element it is not after. */
  function Insert<T(!new)>(x: T, s: seq<T>, le: (T, T) -> bool): (r: seq<T>)
    ensures multiset(r) == multiset(s) + multiset{x}
  {
    if |s| == 0 then [x]
    else if le(x, s[0]) then [x] + s
    else
      assert s == [s[0]] + s[1..];
      [s[0]] + Insert(x, s[1..], le)
  }

  lemma {:induction false} InsertSorted<T(!new)>(x: T, s: seq<T>, le: (T, T) -> bool)
    requires TotalPreorder(le) && Sorted(s, le)
    ensures Sorted(Insert(x, s, le), le)
  {
    if |s| > 0 && !le(x, s[0]) {
      var tail := Insert(x, s[1..], le);
      InsertSorted(x, s[1..], le);
      assert s == [s[0]] + s[1..];
      forall y | y in tail
        ensures le(s[0], y)
      {
        assert y in multiset(tail);
        if y != x {
          assert y in multiset(s[1..]);
        }
      }
      var r := [s[0]] + tail;
      forall i, j | 0 <= i < j < |r|
        ensures le(r[i], r[j])
      {
        if i == 0 {
          assert r[j] in tail;
        } else {
          assert r[i] == tail[i - 1] && r[j] == tail[j - 1];
        }
      }
    } else if |s| > 0 {
      var r := [x] + s;
      forall i, j | 0 <= i < j < |r|
        ensures le(r[i], r[j])
      {
        if i == 0 && j > 1 {
          assert le(s[0], s[j - 1]);
        }
      }
    }
  }

  /** A stable sort: each element goes in front of the sorted rest, ahead of the
      elements it ties with, which came after it. */
  function SortBy<T(!new)>(s: seq<T>, le: (T, T) -> bool): (r: seq<T>)
    requires TotalPreorder(le)
    ensures Sorted(r, le)
    ensures multiset(r) == multiset(s)
    ensures |r| == |s|
  {
    if |s| == 0 then []
    else
      assert s == [s[0]] + s[1..];
      var rest := SortBy(s[1..], le);
      InsertSorted(s[0], rest, le);
      Insert(s[0], rest, le)
  }
}

=== FILE: text.dfy ===
/** The string operations the screens rely on: JavaScript's `String.prototype.trim`
    and truthiness of a string. */
module Text {

  /** The characters `String.prototype.trim` strips: the ECMAScript WhiteSpace
      and LineTerminator code points. */
  predicate IsWhiteSpace(c: char) {
    || c == '\t' || c == '\n' || c == '\U{000B}' || c == '\U{000C}' || c == '\r'
    || c == ' ' || c == '\U{00A0}' || c == '\U{1680}'
    || ('\U{2000}' <= c <= '\U{200A}')
    || c == '\U{2028}' || c == '\U{2029}' || c == '\U{202F}' || c == '\U{205F}'
    || c == '\U{3000}' || c == '\U{FEFF}'
  }

  /** True when every character of `s` is whitespace (including the empty string). */
  predicate AllWhiteSpace(s: string) {
    forall i :: 0 <= i < |s| ==> IsWhiteSpace(s[i])
  }

  /** `s` with its leading whitespace removed: the longest suffix that does not
      start with whitespace. */
  function TrimStart(s: string): (r: string)
    ensures |r| <= |s| && r == s[|s| - |r|..]
    ensures AllWhiteSpace(s[..|s| - |r|])
    ensures |r| > 0 ==> !IsWhiteSpace(r[0])
  {
    if |s| > 0 && IsWhiteSpace(s[0]) then TrimStart(s[1..]) else s
  }

  /** `s` with its trailing whitespace removed: the longest prefix that does not
      end with whitespace. */
  function TrimEnd(s: string): (r: string)
    ensures |r| <= |s| && r == s[..|r|]
    ensures AllWhiteSpace(s[|r|..])
    ensures |r| > 0 ==> !IsWhiteSpace(r[|r| - 1])
  {
    if |s| > 0 && IsWhiteSpace(s[|s| - 1]) then TrimEnd(s[..|s| - 1]) else s
  }

  /** JavaScript's `s.trim()`. */
  function Trim(s: string): (r: string)
  {
    TrimEnd(TrimStart(s))
  }

  /** The trimmed string is a contiguous slice of the input, bordered only by
      whitespace, and neither starts nor ends with whitespace. */
  lemma TrimIsWhiteSpaceFreeSlice(s: string)
    ensures exists i, j :: 0 <= i <= j <= |s| && Trim(s) == s[i..j]
                           && AllWhiteSpace(s[..i]) && AllWhiteSpace(s[j..])
    ensures |Trim(s)| > 0 ==> !IsWhiteSpace(Trim(s)[0]) && !IsWhiteSpace(Trim(s)[|Trim(s)| - 1])
  {
    var t := TrimStart(s);
    var i := |s| - |t|;
    var j := i + |TrimEnd(t)|;
    assert Trim(s) == s[i..j];
    assert s[j..] == t[|TrimEnd(t)|..];
    var r := Trim(s);
    if |r| > 0 {
      assert r[0] == t[0];
    }
  }

  /** A string is blank after trimming exactly when it consists of whitespace only. */
  lemma {:induction false} TrimEmptyIffBlank(s: string)
    ensures Trim(s) == "" <==> AllWhiteSpace(s)
  {
    var t := TrimStart(s);
    var k := |s| - |t|;
    if |t| > 0 {
      assert t[0] == s[k];
    }
    if Trim(s) == "" {
      assert t[|TrimEnd(t)|..] == t;
      assert s[..k] == s;
    }
  }

  /** Trimming twice is the same as trimming once. */
  lemma TrimIdempotent(s: string)
    ensures Trim(Trim(s)) == Trim(s)
  {
    var r := Trim(s);
    TrimIsWhiteSpaceFreeSlice(s);
    if |r| > 0 {
      assert TrimStart(r) == r;
      assert TrimEnd(r) == r;
    }
  }

  /** Code-point lexicographic order, standing in for `localeCompare` on the
      zero-padded "HH:mm" time strings the calendar sorts, where the two agree. */
  predicate LexLe(a: string, b: string) {
    if |a| == 0 then true
    else if |b| == 0 then false
    else if a[0] != b[0] then a[0] < b[0]
    else LexLe(a[1..], b[1..])
  }

  lemma {:induction false} LexLeTotal(a: string, b: string)
    ensures LexLe(a, b) || LexLe(b, a)
  {
    if |a| > 0 && |b| > 0 && a[0] == b[0] {
      LexLeTotal(a[1..], b[1..]);
    }
  }

  lemma {:induction false} LexLeTransitive(a: string, b: string, c: string)
    requires LexLe(a, b) && LexLe(b, c)
    ensures LexLe(a, c)
  {
    if |a| > 0 && |b| > 0 && |c| > 0 && a[0] == b[0] && b[0] == c[0] {
      LexLeTransitive(a[1..], b[1..], c[1..]);
    }
  }
}

=== FILE: wrappers.dfy ===
/** Optional values, standing in for `null`/`undefined` in the JavaScript
    variants and for `Optional` in the Swift variant. */
module Wrappers {

  datatype Option<+T> = None | Some(value: T) {

    /** Returns the value held in Some, or `default` if None. */
    function GetOr(default: T): T {
      match this
      case Some(v) => v
      case None => default
    }
  }

  /** The value of an operation that returns or throws. */
  datatype Result<+R, +E> = Success(value: R) | Failure(error: E)
}
